=== FILE: README.md ===
# Point-of-sale checkout and sales-report validation, modelled in Dafny

This project models two parts of a small point-of-sale HTTP backend written in Go (`api-kasir`):

1. **The checkout engine**: `CreateTransaction` in `repositories/transaction_repository.go`. Inside one database transaction it walks the requested items in order. For each item it reads the product row and fails if the product is missing. It rejects the item if the quantity exceeds the current stock. Otherwise it adds `quantity * price` to a running total, decrements the stock and appends a transaction detail. After the loop it inserts the transaction row, writes the returned transaction id into every detail, inserts the details and commits. Any error means nothing is committed.
2. **The sales-report date validator**: `GetSalesReportByDate` in `handlers/report_handler.go`. It checks its `start_date` and `end_date` query parameters in a fixed order: both present, then `start_date` well formed, then `end_date` well formed, then start not after end. The first failed check answers 400. Otherwise the repository is asked for the report with the original strings; a repository error answers 500 and a report answers 200.

Files:

- `wrappers.dfy`: module `Wrappers`, which defines `Option` and `Result`.
- `transaction_repository.dfy`: module `TransactionRepository`. It holds the data model and the checkout as a pure function:
  - the data model: `Product`, `Store`, `CheckoutItem`, `TransactionDetail`, `Transaction`, `CheckoutError`, `DbFault`, `Outcome`;
  - one loop iteration, `Step`;
  - the ordered fold over the items, `ProcessItems`;
  - the whole call, `CreateTransaction`.
- `checkout_properties.dfy`: module `CheckoutProperties`. These lemmas cover:
  - how the item loop composes over a request;
  - exactly when a checkout succeeds;
  - which line fails first, and with which error;
  - that every failing database call the checkout reaches makes it fail, and that a success reached none;
  - why stock never goes negative;
  - the sample runs.
- `transaction_loop.dfy`: module `TransactionLoop`. This is `CreateTransaction` written with the repository's loops and early returns. It is proved to compute exactly what the fold defines.
- `dates.dfy`: module `Dates`. It models Go's `time.Parse` with layout `2006-01-02`, Gregorian month lengths, and the year/month/day ordering used for `Time.After`. The ordering is proved to agree with day counts.
- `report_handler.dfy`: module `ReportHandler`, holding the ordered validation `ValidateRange` and the endpoint `GetSalesReportByDate`.
- `report_properties.dfy`: module `ReportProperties`, with lemmas on the precedence of the checks, the calendar meaning of the range check, and what reaches the repository.

Modelling choices:

- **The products table** is an immutable `map<int, Product>`, where a product row is name, price and stock. A working copy is threaded through the loop and stands for the uncommitted database transaction. Because the copy is threaded, a product id that appears twice is re-read and sees the stock already reduced by the earlier line, as it does in the database.
- **Prices and stock are integers.** The checkout query scans `price` into an `int` (`transaction_repository.go:40`). The `float64` price of the product model plays no part in the checkout. Integers are unbounded.
- **No extra preconditions.** The code does not reject an empty item list or a quantity that is zero or negative, and neither does the model. An empty request yields total 0 and no details.
- **Database failures are a parameter.** `fault: DbFault` names the one SQL call that fails, if any: `Begin`, a product read, a stock update, the transaction insert, the prepare, one detail insert, or the commit. The model returns the error at the same point the code does, so a database error and an item error are ordered as in the code.
- **The new transaction id is a parameter.** `txId` is the id that `INSERT ... RETURNING id` would produce.
- **Failure commits nothing.** On every error path the committed table is the input table. On several of those paths (the insufficient-stock return, the detail-insert error at line 100 where `err` is shadowed, the commit error) the deferred `Rollback` at lines 27-31 does not run, because the outer `err` is nil or shadowed. The transaction is simply never committed. So the model states "committed table unchanged" and claims no rollback.
- **Missing query parameters** are modelled as the empty string, which is what Go's `url.Values.Get` returns for them. The repository is a function parameter `(string, string) -> Result<SalesReport, string>`.
- **What "malformed" means.** A date is malformed when the layout `2006-01-02` rejects it. The layout accepts exactly four year digits, `-`, two month digits, `-` and two day digits, with the month in 1..12 and the day within that month's length (Gregorian leap years). Anything else, including trailing text, is rejected. `Parse` is proved to be the exact inverse of writing a valid date with a four-digit year.

The project's design documentation for the checkout endpoint describes some behaviour differently from the code. The model follows the code:

- The checkout is documented to require a non-empty item list and positive quantities. The code checks neither, so neither does the model.
- The insufficient-stock error is documented to carry the product id. The code reports the product **name**, the requested quantity and the available stock, and so does the model.
- The price is documented as a decimal. The checkout code reads it as an integer.
- A rollback is documented on every failure. The code only leaves the transaction uncommitted on several paths (see above).

## Model

| member | source | states |
|---|---|---|
| TransactionRepository.StepSpec | repositories/transaction_repository.go:38-74 | An item that passes yields a detail with the product's id and name and subtotal quantity × price, and takes exactly its quantity off that product's stock. Without a database fault, an item passes if and only if its product exists and the quantity is at most the current stock. Otherwise it fails as ProductNotFound(id) when the product is missing, or as InsufficientStock(name, requested, current stock) when the quantity exceeds the stock. |
| TransactionRepository.ProcessItemsSpec | repositories/transaction_repository.go:33-75 | After a successful item loop there is one detail per request item, in request order. Each detail is priced from the row as read. The running total equals the sum of the subtotals. Every product's stock dropped by exactly the total quantity requested for it, and nothing else in the table changed. |
| TransactionRepository.CreateTransaction | repositories/transaction_repository.go:18-117 | Any error leaves the committed table equal to the input table. On success the transaction id is the inserted id. Every detail carries that id and the product id, name, quantity and subtotal of its request line. There is one detail per item, in order. The total is the sum of the subtotals, and the committed stock is the input stock minus the quantities requested per product. |
| TransactionRepository.SubtotalsUnchangedByStamp | repositories/transaction_repository.go:85-87 | Writing the transaction id into the details changes no subtotal, so the total still equals the sum of the returned details' subtotals. |
| CheckoutProperties.StepFailureEndsLoop | repositories/transaction_repository.go:42-66 | An item that fails ends the whole loop with that item's error. |
| CheckoutProperties.ProcessItemsSplit | repositories/transaction_repository.go:38-75 | Items are processed strictly in order. Running the loop over a request equals running it over the first k lines and then over the rest, starting from the stock the first part left. |
| CheckoutProperties.ProcessItemsFeasible | repositories/transaction_repository.go:42-55 | The item loop succeeds only when every line's product exists and its quantity is at most the stock left by the earlier lines. With no database fault inside the loop, every such request succeeds. |
| CheckoutProperties.ProcessItemsFaultFree | repositories/transaction_repository.go:42-66 | A failing product read or stock update on a line outside the request changes nothing. A loop that succeeds reached no failing read or update, and its result is the one a healthy database gives. Faults on lines after the first line that fails are covered by `CheckoutProperties.FirstUnfitLineDecidesError`. |
| CheckoutProperties.LoopFaultFails | repositories/transaction_repository.go:42-66 | On a request whose every line fits, a failing product read (lines 47-48) or stock update (lines 64-65) of any line fails the loop with that database error. |
| CheckoutProperties.CheckoutSucceedsIffFeasible | repositories/transaction_repository.go:42-63 | With a healthy database, a checkout succeeds if and only if every line fits the stock left by the earlier lines of the same request. A repeated id is checked against the already-reduced stock. |
| CheckoutProperties.MissingProductFails | repositories/transaction_repository.go:42-45 | A request that names a product id missing from the table fails under any database behaviour, and the committed table is unchanged. |
| CheckoutProperties.FirstUnfitLineDecidesError | repositories/transaction_repository.go:42-55 | The first line that cannot be served decides the error: ProductNotFound(id) if its product is missing, otherwise InsufficientStock(name, requested, stock left by the earlier lines). The committed table is unchanged. The stock check comes before the update at line 63, so a failing update of that same line still yields the item error. A failing read or update of a later line, or any call after the loop, does not matter either, because the code never reaches it. |
| CheckoutProperties.LoopFaultOnServedPrefix | repositories/transaction_repository.go:42-66 | Suppose every earlier line was served. Then a failing product read of the next line (lines 47-48) fails the checkout with that database error, not ProductNotFound, because only "no rows" means not found (line 43). A failing stock update of a line that fits (lines 64-65) also fails it with that database error. Nothing is committed. |
| CheckoutProperties.ProcessItemsKeepsStockGuarded | repositories/transaction_repository.go:52-63 | Each decrement is guarded by `quantity <= stock`. So after the loop, every product's stock is either non-negative or unchanged. |
| CheckoutProperties.CheckoutStockNeverNegative | repositories/transaction_repository.go:52-63 | If every product starts with non-negative stock, every committed stock is non-negative, whatever the request and whatever single database call fails, for a checkout that runs alone. |
| CheckoutProperties.SuccessMeansNoFaultReached | repositories/transaction_repository.go:23-108 | Every failing database call on the path makes the checkout fail. So a checkout that succeeds reached no failing call (begin, read or update of one of its lines, transaction insert, prepare, insert of one of its details, commit), and its outcome equals the healthy-database outcome. |
| CheckoutProperties.ReachedFaultFails | repositories/transaction_repository.go:23-108 | On a request whose every line fits, any one failing database call fails the checkout and commits nothing. A failing detail insert reports DetailInsertFailed with that line's product id (line 102); every other call reports its database error. |
| CheckoutProperties.UnreachedFaultIsHarmless | repositories/transaction_repository.go:38-104 | A failing database call that the checkout never makes changes nothing, and the outcome is the healthy-database outcome. Examples are a read or update of a line the request does not have, or a detail insert beyond the request's details (the insert loop at lines 99-104 runs only over the details). |
| CheckoutProperties.CheckoutSucceedsIffFeasibleAndNoFaultReached | repositories/transaction_repository.go:18-117 | Under any single database fault, a checkout succeeds if and only if every line fits the stock the earlier lines left and none of the database calls it makes fails. |
| CheckoutProperties.SampleCheckouts | repositories/transaction_repository.go:52-63 | A sample run with products A (price 10, stock 5) and B (price 20, stock 2). Buying two A and one B costs 40 and leaves stocks 3 and 1. Then asking for three B fails with InsufficientStock("B", 3, 1), and B stays at 1. |
| CheckoutProperties.RepeatedProductSeesReducedStock | repositories/transaction_repository.go:42-63 | With stock 3, two lines of quantity 2 for the same product fail on the second line with 1 available, and nothing is committed. |
| TransactionLoop.RunItems | repositories/transaction_repository.go:34-75 | The item loop with early returns (read, stock check, subtotal, update, append) returns exactly what the ordered fold defines. |
| TransactionLoop.StampDetails | repositories/transaction_repository.go:85-87 | The stamping loop writes the transaction id into every detail and changes nothing else. |
| TransactionLoop.InsertDetails | repositories/transaction_repository.go:99-104 | The detail-insert loop reports an error exactly when one insert fails. The error names that detail's product id. |
| TransactionLoop.CreateTransaction | repositories/transaction_repository.go:18-117 | The repository's sequence of begin, item loop, transaction insert, stamping, prepare, detail inserts and commit computes the same outcome as the functional model, on every input and every database fault. |
| Dates.Parse | handlers/report_handler.go:52-66 | Any text that the `2006-01-02` layout accepts denotes a valid Gregorian date with a four-digit year, and writing that date back in the layout gives exactly the original text. |
| Dates.ParseFormat | handlers/report_handler.go:52-66 | A date written as four year digits, two month digits and two day digits parses back to that same date exactly when the date is valid. Together with `Dates.Parse`, the accepted texts are exactly the written forms of valid dates. |
| Dates.AfterIsLaterDay | handlers/report_handler.go:69-72 | For valid dates, comparing year, then month, then day says "after" exactly when the first date's day count is larger. Go's `Time.After` compares these midnight-UTC instants in the same way. |
| ReportHandler.ValidateRange | handlers/report_handler.go:42-78 | A request is accepted iff both dates parse and start is not after end. The repository then receives the two strings unchanged. MissingParameter is returned iff a parameter is empty. A bad end date is reported only after a good start date, and an inverted range only after both dates parse. |
| ReportHandler.GetSalesReportByDate | handlers/report_handler.go:36-89 | The status is 400 iff validation refuses, and the body is then that refusal's message. Once validation passes, a repository error gives 500 with its text and a report gives 200 with the report, for the strings as sent. |
| ReportProperties.AcceptedIffStartNotLaterDay | handlers/report_handler.go:69-80 | Two well-formed dates are accepted exactly when the start's calendar day is not later than the end's. |
| ReportProperties.SameDayAccepted | handlers/report_handler.go:72-80 | Equal well-formed dates are accepted, because `After` is strict. |
| ReportProperties.MissingParameterAnswersBadRequest | handlers/report_handler.go:43-49 | An empty `start_date` or `end_date` answers 400 with the missing-parameter message, whatever the repository would return. |
| ReportProperties.RefusalIgnoresRepository | handlers/report_handler.go:43-78 | A refused request gets the same 400 answer from any two repositories, so no repository is consulted. |
| ReportProperties.BadStartReportedFirst | handlers/report_handler.go:52-58 | A malformed start date is the reported error even when the end date is malformed too. |
| ReportProperties.StatusIsOkBadRequestOrServerError | handlers/report_handler.go:36-89 | The endpoint answers only 200, 400 or 500. |
| ReportProperties.MonthThirteenIsMalformed | handlers/report_handler.go:60-66 | "2026-13-01" does not parse, because month 13 is out of range. |
| ReportProperties.MonthThirteenEndRefused | handlers/report_handler.go:60-66 | After a well-formed start date, the end date "2026-13-01" is refused as a malformed end date. |
| ReportProperties.MonthOutOfRange | handlers/report_handler.go:52-66 | Any ten-character text whose month field is outside 1..12 does not parse. |
| ReportProperties.LeapDay | handlers/report_handler.go:52-66 | The 29th of February of a four-digit year parses exactly in Gregorian leap years. |

## Left out

- The SQL plumbing is not modelled: `db.Begin`, `QueryRow`, `Exec`, `Prepare`, `Commit`, row scanning and generated ids. Each call's failure is the `DbFault` parameter, and the generated transaction id is the `txId` parameter.
- The error texts of the checkout are not modelled. The Go code formats strings such as "product id %d not found"; the model returns structured errors with the same fields.
- The detail's own `ID` field is not modelled. `CreateTransaction` never assigns it (it keeps Go's zero value), and the detail inserts do not read it back.
- Concurrency and row locking between simultaneous checkouts are not modelled, and the model is sequential. The source does not prevent overselling between concurrent checkouts. The stock check reads through an unlocked `SELECT` (transaction_repository.go:42), and the decrement is relative (`stock = stock - $1`, line 63). So two checkouts can both pass the check and drive the stock below zero. The non-negativity theorem `CheckoutProperties.CheckoutStockNeverNegative` holds only for a checkout that runs alone.
- Connection and lock lifetime after a failure are not modelled. The model states only that nothing is committed. On the insufficient-stock return (transaction_repository.go:53) and the detail-insert return (line 102), neither `Commit` nor `Rollback` runs. So `database/sql` keeps the connection checked out, and the database keeps the row locks taken by the earlier stock `UPDATE`s (line 63). A later checkout of one of those products can then block at line 63. "Nothing committed" therefore does not mean "no lasting effect".
- The report aggregation queries are not modelled (`GetDailySalesReport` and `GetSalesReportByDateRange` at transaction_repository.go:120-169, and repositories/report_repository.go). Their revenue, count and best-seller logic is SQL text evaluated by the database. The handler receives the repository as a parameter instead.
- `GetDailySalesReport` in handlers/report_handler.go:20-33 is not modelled: its only input is the wall clock (`time.Now`) read by the repository.
- The wall clock is not modelled.
- JSON encoding of the responses and the `Content-Type` header are not modelled.
- The category handlers (handlers/categories_handler.go) are not modelled: they are HTTP routing and calls into a service that is not part of this model.
- Go `int` overflow is not modelled: quantities, prices, subtotals and totals are unbounded integers.
- Dates.Parse: Go's parse error values and messages are not modelled, only whether parsing fails. Years are limited to the four digits the layout reads, so the model has no negative or five-digit years.

=== FILE: checkout_properties.dfy ===
/**
 Properties of the checkout model that relate several calls or quantify over
 all requests: when a checkout succeeds, which line fails first and with which
 error, and why stock never goes negative.
 */
module CheckoutProperties {
  import opened Wrappers
  import opened TransactionRepository

  /**
   Line `k` of `items` can be served from `store`: its product exists and the
   quantity is at most the stock left after the earlier lines of the request
   took their share of the same product.
   */
  predicate LineFits(store: Store, items: seq<CheckoutItem>, k: nat)
    requires k < |items|
  {
    && items[k].productId in store
    && items[k].quantity <= Available(store, items, k)
  }

  /** The stock of line `k`'s product once lines 0..k-1 have been served (0 when it is missing). */
  function Available(store: Store, items: seq<CheckoutItem>, k: nat): int
    requires k < |items|
  {
    var id := items[k].productId;
    if id in store then store[id].stock - QtyFor(items[..k], id) else 0
  }

  /** Every line of the request can be served, each one against what the earlier lines left. */
  ghost predicate Feasible(store: Store, items: seq<CheckoutItem>)
  {
    forall k :: 0 <= k < |items| ==> LineFits(store, items, k)
  }

  /** The error the repository reports for line `k` when that line cannot be served. */
  function LineError(store: Store, items: seq<CheckoutItem>, k: nat): CheckoutError
    requires k < |items|
  {
    var id := items[k].productId;
    if id !in store then ProductNotFound(id)
    else InsufficientStock(store[id].name, items[k].quantity, Available(store, items, k))
  }

  /** Prefixing the loop state `p` to the outcome of the remaining lines. */
  function Extend(p: Pass, r: Result<Pass, CheckoutError>): Result<Pass, CheckoutError>
  {
    match r
    case Failure(e) => Failure(e)
    case Success(q) => Success(Pass(q.store, p.total + q.total, p.details + q.details))
  }

  // ---------------------------------------------------------------------------
  // Sequencing of the item loop
  // ---------------------------------------------------------------------------

  /** One turn of the loop: the first line's pass followed by the rest of the request. */
  lemma ProcessItemsUnfold(work: Store, items: seq<CheckoutItem>, first: nat, fault: DbFault)
    requires |items| > 0
    requires Step(work, items[0], first, fault).Success?
    ensures
      var s := Step(work, items[0], first, fault).value;
      ProcessItems(work, items, first, fault)
      == Extend(Pass(s.0, s.1.subtotal, [s.1]), ProcessItems(s.0, items[1..], first + 1, fault))
  {
  }

  /** A line that fails ends the loop with that line's error. */
  lemma StepFailureEndsLoop(work: Store, items: seq<CheckoutItem>, first: nat, fault: DbFault)
    requires |items| > 0
    requires Step(work, items[0], first, fault).Failure?
    ensures ProcessItems(work, items, first, fault) == Failure(Step(work, items[0], first, fault).error)
  {
  }

  /** Extending twice is extending once by the combined total and details. */
  lemma ExtendTwice(p: Pass, q: Pass, r: Result<Pass, CheckoutError>)
    ensures Extend(p, Extend(q, r)) == Extend(Pass(q.store, p.total + q.total, p.details + q.details), r)
  {
    match r
    case Failure(_) =>
    case Success(t) =>
      assert p.details + (q.details + t.details) == (p.details + q.details) + t.details;
  }

  /** Splitting before the first line: an empty pass followed by the whole request. */
  lemma ProcessItemsSplitAtStart(work: Store, items: seq<CheckoutItem>, first: nat, fault: DbFault)
    ensures ProcessItems(work, items[..0], first, fault) == Success(Pass(work, 0, []))
    ensures ProcessItems(work, items, first, fault) == Extend(Pass(work, 0, []), ProcessItems(work, items[0..], first, fault))
  {
    assert items[..0] == [];
    assert items[0..] == items;
    match ProcessItems(work, items, first, fault)
    case Failure(_) =>
    case Success(q) =>
      assert [] + q.details == q.details;
  }

  /**
   Running the loop over `items` is running it over the first `k` lines and
   then over the rest, starting from the working table the first part left.
   */
  lemma {:induction false} ProcessItemsSplit(work: Store, items: seq<CheckoutItem>, first: nat, fault: DbFault, k: nat)
    requires k <= |items|
    requires ProcessItems(work, items[..k], first, fault).Success?
    ensures
      var mid := ProcessItems(work, items[..k], first, fault).value;
      ProcessItems(work, items, first, fault) == Extend(mid, ProcessItems(mid.store, items[k..], first + k, fault))
    decreases k, 1
  {
    if k == 0 {
      ProcessItemsSplitAtStart(work, items, first, fault);
    } else {
      ProcessItemsSplitAfterFirst(work, items, first, fault, k);
    }
  }

  /** The inductive step of ProcessItemsSplit: peel the first line off both sides. */
  lemma {:induction false} ProcessItemsSplitAfterFirst(work: Store, items: seq<CheckoutItem>, first: nat, fault: DbFault, k: nat)
    requires 0 < k <= |items|
    requires ProcessItems(work, items[..k], first, fault).Success?
    ensures
      var mid := ProcessItems(work, items[..k], first, fault).value;
      ProcessItems(work, items, first, fault) == Extend(mid, ProcessItems(mid.store, items[k..], first + k, fault))
    decreases k, 0
  {
    var s := Step(work, items[0], first, fault);
    PrefixUnfold(work, items, first, fault, k);
    var work' := s.value.0;
    var p0 := Pass(work', s.value.1.subtotal, [s.value.1]);
    var rest := items[1..];
    var mid' := ProcessItems(work', rest[..k - 1], first + 1, fault).value;
    ProcessItemsSplit(work', rest, first + 1, fault, k - 1);
    assert rest[k - 1..] == items[k..];
    var tail := ProcessItems(mid'.store, items[k..], first + k, fault);
    assert ProcessItems(work', rest, first + 1, fault) == Extend(mid', tail);
    ProcessItemsUnfold(work, items, first, fault);
    ExtendTwice(p0, mid', tail);
  }

  /**
   A successful pass over the first `k > 0` lines is the first line's pass
   followed by a successful pass over lines 1..k-1.
   */
  lemma PrefixUnfold(work: Store, items: seq<CheckoutItem>, first: nat, fault: DbFault, k: nat)
    requires 0 < k <= |items|
    requires ProcessItems(work, items[..k], first, fault).Success?
    ensures Step(work, items[0], first, fault).Success?
    ensures
      var s := Step(work, items[0], first, fault).value;
      var inner := ProcessItems(s.0, items[1..][..k - 1], first + 1, fault);
      && inner.Success?
      && ProcessItems(work, items[..k], first, fault).value
         == Pass(inner.value.store, s.1.subtotal + inner.value.total, [s.1] + inner.value.details)
  {
    var pre := items[..k];
    assert pre[0] == items[0];
    assert pre[1..] == items[1..][..k - 1];
  }

  /**
   The first line of a request decides whether the rest is judged against
   the table it leaves.
   */
  lemma FeasibleCons(store: Store, items: seq<CheckoutItem>, after: Store)
    requires |items| > 0
    requires LineFits(store, items, 0)
    requires Decremented(store, [items[0]], after)
    ensures Feasible(store, items) <==> Feasible(after, items[1..])
  {
    var id0 := items[0].productId;
    forall k | 1 <= k < |items|
      ensures LineFits(store, items, k) <==> LineFits(after, items[1..], k - 1)
    {
      var id := items[k].productId;
      assert items[1..][k - 1] == items[k];
      assert items[..k][0] == items[0];
      assert items[..k][1..] == items[1..][..k - 1];
      if id in store {
        assert QtyFor([items[0]], id) == (if id0 == id then items[0].quantity else 0);
        assert QtyFor(items[..k], id) == (if id0 == id then items[0].quantity else 0) + QtyFor(items[1..][..k - 1], id);
      }
    }
    if Feasible(after, items[1..]) {
      forall k | 0 <= k < |items| ensures LineFits(store, items, k) {
        if k > 0 { assert LineFits(after, items[1..], k - 1); }
      }
    }
    if Feasible(store, items) {
      forall j | 0 <= j < |items[1..]| ensures LineFits(after, items[1..], j) {
        assert LineFits(store, items, j + 1);
      }
    }
  }

  /**
   The item loop succeeds only on a feasible request, whatever the database
   does; with no fault inside the loop it succeeds on every feasible one.
   */
  lemma {:induction false} ProcessItemsFeasible(work: Store, items: seq<CheckoutItem>, first: nat, fault: DbFault)
    ensures ProcessItems(work, items, first, fault).Success? ==> Feasible(work, items)
    ensures !LoopFault(fault) && Feasible(work, items) ==> ProcessItems(work, items, first, fault).Success?
    decreases |items|
  {
    if |items| > 0 {
      var s := Step(work, items[0], first, fault);
      assert items[..0] == [];
      if !LoopFault(fault) && Feasible(work, items) {
        assert LineFits(work, items, 0);
      }
      if s.Success? {
        assert LineFits(work, items, 0);
        ProcessItemsFeasible(s.value.0, items[1..], first + 1, fault);
        FeasibleCons(work, items, s.value.0);
      }
    }
  }

  // ---------------------------------------------------------------------------
  // Database faults inside the item loop
  // ---------------------------------------------------------------------------

  /** `fault` is a product read or stock update of one of the lines `first .. first + n - 1`. */
  predicate LoopFaultWithin(fault: DbFault, first: nat, n: nat)
  {
    LoopFault(fault) && first <= fault.line < first + n
  }

  /**
   A read or update fault of a line the loop does not reach changes nothing,
   and a loop that succeeds reached no failing read or update: its result is
   the one a healthy database gives.
   */
  lemma {:induction false} ProcessItemsFaultFree(work: Store, items: seq<CheckoutItem>, first: nat, fault: DbFault)
    ensures !LoopFaultWithin(fault, first, |items|) ==>
      ProcessItems(work, items, first, fault) == ProcessItems(work, items, first, NoFault)
    ensures ProcessItems(work, items, first, fault).Success? ==>
      && !LoopFaultWithin(fault, first, |items|)
      && ProcessItems(work, items, first, fault) == ProcessItems(work, items, first, NoFault)
    decreases |items|
  {
    if |items| > 0 {
      var s := Step(work, items[0], first, fault);
      if s.Success? {
        ProcessItemsFaultFree(s.value.0, items[1..], first + 1, fault);
      }
      if !LoopFaultWithin(fault, first, |items|) {
        assert s == Step(work, items[0], first, NoFault);
        if s.Success? {
          assert !LoopFaultWithin(fault, first + 1, |items| - 1);
        }
      }
    }
  }

  /**
   On a feasible request every line passes its stock check, so a failing
   product read or stock update of any line fails the loop with that
   database error.
   */
  lemma {:induction false} LoopFaultFails(work: Store, items: seq<CheckoutItem>, first: nat, fault: DbFault)
    requires Feasible(work, items)
    requires LoopFaultWithin(fault, first, |items|)
    ensures ProcessItems(work, items, first, fault) == Failure(DatabaseError(fault))
    decreases |items|
  {
    assert items[..0] == [];
    assert LineFits(work, items, 0);
    var s := Step(work, items[0], first, fault);
    if fault.line != first {
      StepSpec(work, items[0], first, fault);
      FeasibleCons(work, items, s.value.0);
      LoopFaultFails(s.value.0, items[1..], first + 1, fault);
    }
  }

  // ---------------------------------------------------------------------------
  // Properties of a whole checkout
  // ---------------------------------------------------------------------------

  /**
   With a healthy database a checkout succeeds exactly when every line fits
   the stock the earlier lines left; a repeated product id is checked against
   the already reduced stock.
   */
  lemma CheckoutSucceedsIffFeasible(store: Store, items: seq<CheckoutItem>, txId: int)
    ensures CreateTransaction(store, items, txId, NoFault).receipt.Success? <==> Feasible(store, items)
  {
    ProcessItemsFeasible(store, items, 0, NoFault);
  }

  /** A checkout that mentions a product id the table lacks fails and commits nothing. */
  lemma MissingProductFails(store: Store, items: seq<CheckoutItem>, txId: int, fault: DbFault, k: nat)
    requires k < |items| && items[k].productId !in store
    ensures CreateTransaction(store, items, txId, fault).receipt.Failure?
    ensures CreateTransaction(store, items, txId, fault).committed == store
  {
    ProcessItemsFeasible(store, items, 0, fault);
    assert !LineFits(store, items, k);
  }

  /**
   When lines 0..k-1 all fit and no read or update among them fails, the loop
   serves them and meets line `k` with its product as the request left it:
   present exactly when it is in the table, with its name and with the stock
   the earlier lines left.
   */
  lemma ServedPrefix(store: Store, items: seq<CheckoutItem>, fault: DbFault, k: nat)
    requires k < |items|
    requires forall j :: 0 <= j < k ==> LineFits(store, items, j)
    requires !LoopFaultWithin(fault, 0, k)
    ensures ProcessItems(store, items[..k], 0, fault).Success?
    ensures
      var mid := ProcessItems(store, items[..k], 0, fault).value;
      var id := items[k].productId;
      && ProcessItems(store, items, 0, fault) == Extend(mid, ProcessItems(mid.store, items[k..], k, fault))
      && items[k..][0] == items[k]
      && (id in mid.store <==> id in store)
      && (id in store ==> mid.store[id] == store[id].(stock := Available(store, items, k)))
  {
    var pre := items[..k];
    forall j | 0 <= j < |pre| ensures LineFits(store, pre, j) {
      assert pre[..j] == items[..j];
      assert LineFits(store, items, j);
    }
    ProcessItemsFeasible(store, pre, 0, NoFault);
    ProcessItemsFaultFree(store, pre, 0, fault);
    ProcessItemsSplit(store, items, 0, fault, k);
    ProcessItemsSpec(store, pre, 0, fault);
  }

  /**
   The first line that cannot be served decides the error: a missing product
   gives ProductNotFound with its id, otherwise InsufficientStock with the
   product name, the requested quantity and the stock the earlier lines left.
   Nothing is committed. The product read of that line must succeed for the
   line to be judged; a failing stock update of it does not matter, since the
   stock check comes first, and neither does a failing read or update of a
   later line, since the loop never gets there.
   */
  lemma FirstUnfitLineDecidesError(store: Store, items: seq<CheckoutItem>, txId: int, fault: DbFault, k: nat)
    requires fault != BeginFails
    requires !(fault.ReadFails? && fault.line <= k) && !(fault.UpdateFails? && fault.line < k)
    requires k < |items|
    requires forall j :: 0 <= j < k ==> LineFits(store, items, j)
    requires !LineFits(store, items, k)
    ensures CreateTransaction(store, items, txId, fault) == Outcome(store, Failure(LineError(store, items, k)))
  {
    ServedPrefix(store, items, fault, k);
    var mid := ProcessItems(store, items[..k], 0, fault).value;
    assert Step(mid.store, items[k..][0], k, fault) == Failure(LineError(store, items, k));
  }

  /**
   A failing product read, or a failing stock update of a line that fits,
   after every earlier line was served fails the checkout with that database
   error and commits nothing; the read error is not mistaken for a missing
   product.
   */
  lemma LoopFaultOnServedPrefix(store: Store, items: seq<CheckoutItem>, txId: int, fault: DbFault)
    requires LoopFault(fault) && fault.line < |items|
    requires forall j :: 0 <= j < fault.line ==> LineFits(store, items, j)
    requires fault.UpdateFails? ==> LineFits(store, items, fault.line)
    ensures CreateTransaction(store, items, txId, fault) == Outcome(store, Failure(DatabaseError(fault)))
  {
    var k := fault.line;
    ServedPrefix(store, items, fault, k);
    var mid := ProcessItems(store, items[..k], 0, fault).value;
    assert Step(mid.store, items[k..][0], k, fault) == Failure(DatabaseError(fault));
  }

  /**
   Every line's stock check guards its decrement, so a product that starts
   with non-negative stock never ends below zero, and a product whose stock
   changes at all ends at zero or above.
   */
  lemma {:induction false} ProcessItemsKeepsStockGuarded(work: Store, items: seq<CheckoutItem>, first: nat, fault: DbFault)
    requires ProcessItems(work, items, first, fault).Success?
    ensures var after := ProcessItems(work, items, first, fault).value.store;
      forall id :: id in work ==> id in after && (after[id].stock >= 0 || after[id].stock == work[id].stock)
    decreases |items|
  {
    ProcessItemsSpec(work, items, first, fault);
    if |items| > 0 {
      var s := Step(work, items[0], first, fault);
      ProcessItemsKeepsStockGuarded(s.value.0, items[1..], first + 1, fault);
    }
  }

  /** If every product starts with non-negative stock, every committed stock is non-negative. */
  lemma CheckoutStockNeverNegative(store: Store, items: seq<CheckoutItem>, txId: int, fault: DbFault)
    requires forall id :: id in store ==> store[id].stock >= 0
    ensures forall id :: id in CreateTransaction(store, items, txId, fault).committed ==>
      CreateTransaction(store, items, txId, fault).committed[id].stock >= 0
  {
    if fault != BeginFails && ProcessItems(store, items, 0, fault).Success? {
      ProcessItemsKeepsStockGuarded(store, items, 0, fault);
    }
  }

  /** The database call `fault` names is one a checkout of `n` lines makes once every line passes. */
  predicate Reached(fault: DbFault, n: nat)
  {
    match fault
    case NoFault => false
    case ReadFails(j) => j < n
    case UpdateFails(j) => j < n
    case InsertDetailFails(j) => j < n
    case _ => true
  }

  /** The error a checkout reports when the database call `fault` fails. */
  function FaultError(items: seq<CheckoutItem>, fault: DbFault): CheckoutError
    requires fault.InsertDetailFails? ==> fault.line < |items|
  {
    if fault.InsertDetailFails? then DetailInsertFailed(items[fault.line].productId, fault)
    else DatabaseError(fault)
  }

  /**
   A checkout that succeeds reached no failing database call, and its
   outcome is the one a healthy database gives.
   */
  lemma SuccessMeansNoFaultReached(store: Store, items: seq<CheckoutItem>, txId: int, fault: DbFault)
    requires CreateTransaction(store, items, txId, fault).receipt.Success?
    ensures !Reached(fault, |items|)
    ensures CreateTransaction(store, items, txId, fault) == CreateTransaction(store, items, txId, NoFault)
  {
    ProcessItemsFaultFree(store, items, 0, fault);
    ProcessItemsSpec(store, items, 0, fault);
  }

  /**
   On a feasible request every database call is made, so whichever one fails
   fails the checkout with its error and nothing is committed: a detail
   insert names the product of its line, any other call is a database error.
   */
  lemma ReachedFaultFails(store: Store, items: seq<CheckoutItem>, txId: int, fault: DbFault)
    requires Feasible(store, items)
    requires Reached(fault, |items|)
    ensures CreateTransaction(store, items, txId, fault) == Outcome(store, Failure(FaultError(items, fault)))
  {
    if fault != BeginFails {
      if LoopFault(fault) {
        LoopFaultFails(store, items, 0, fault);
      } else {
        ProcessItemsFaultFree(store, items, 0, fault);
        ProcessItemsFeasible(store, items, 0, NoFault);
        ProcessItemsSpec(store, items, 0, NoFault);
      }
    }
  }

  /**
   A failing database call that the checkout never makes changes nothing: a
   read or update of a line the request does not have, or a detail insert
   beyond its details.
   */
  lemma UnreachedFaultIsHarmless(store: Store, items: seq<CheckoutItem>, txId: int, fault: DbFault)
    requires !Reached(fault, |items|)
    ensures CreateTransaction(store, items, txId, fault) == CreateTransaction(store, items, txId, NoFault)
  {
    ProcessItemsFaultFree(store, items, 0, fault);
    if ProcessItems(store, items, 0, fault).Success? {
      ProcessItemsSpec(store, items, 0, fault);
    }
  }

  /**
   Whatever the database does, a checkout succeeds exactly when every line
   fits the stock the earlier lines left and no database call it makes fails.
   */
  lemma CheckoutSucceedsIffFeasibleAndNoFaultReached(store: Store, items: seq<CheckoutItem>, txId: int, fault: DbFault)
    ensures CreateTransaction(store, items, txId, fault).receipt.Success?
        <==> Feasible(store, items) && !Reached(fault, |items|)
  {
    CheckoutSucceedsIffFeasible(store, items, txId);
    if CreateTransaction(store, items, txId, fault).receipt.Success? {
      SuccessMeansNoFaultReached(store, items, txId, fault);
    }
    if !Reached(fault, |items|) {
      UnreachedFaultIsHarmless(store, items, txId, fault);
    }
  }

  /**
   The sample run: A (price 10, stock 5) and B (price 20, stock 2). Buying
   two A and one B costs 40 and leaves stocks 3 and 1; asking then for three B
   fails with InsufficientStock(B, 3, 1) and leaves B at 1.
   */
  lemma SampleCheckouts()
    ensures
      var store := map[1 := Product("A", 10, 5), 2 := Product("B", 20, 2)];
      var first := CreateTransaction(store, [CheckoutItem(1, 2), CheckoutItem(2, 1)], 7, NoFault);
      && first.receipt.Success?
      && first.receipt.value.totalAmount == 40
      && first.committed == map[1 := Product("A", 10, 3), 2 := Product("B", 20, 1)]
      && CreateTransaction(first.committed, [CheckoutItem(2, 3)], 8, NoFault)
         == Outcome(first.committed, Failure(InsufficientStock("B", 3, 1)))
  {
    var store := map[1 := Product("A", 10, 5), 2 := Product("B", 20, 2)];
    var items := [CheckoutItem(1, 2), CheckoutItem(2, 1)];
    var first := CreateTransaction(store, items, 7, NoFault);
    CheckoutSucceedsIffFeasible(store, items, 7);
    assert items[..0] == [] && items[..1] == [items[0]];
    assert Feasible(store, items);
    assert first.receipt.value.details[0].subtotal == 20;
    assert first.receipt.value.details[1].subtotal == 20;
    assert first.committed[1].stock == 3;
    assert first.committed[2].stock == 1;
    assert first.committed == map[1 := Product("A", 10, 3), 2 := Product("B", 20, 1)];
  }

  /**
   A product ordered twice is checked the second time against the stock the
   first line left: with stock 3, lines of 2 and 2 fail on the second line
   with 1 available.
   */
  lemma RepeatedProductSeesReducedStock()
    ensures CreateTransaction(map[1 := Product("A", 10, 3)], [CheckoutItem(1, 2), CheckoutItem(1, 2)], 1, NoFault)
         == Outcome(map[1 := Product("A", 10, 3)], Failure(InsufficientStock("A", 2, 1)))
  {
  }
}

=== FILE: dates.dfy ===
/**
 Calendar dates as the report handler reads them: Go's `time.Parse` with the
 layout "2006-01-02" and `Time.After` on the parsed values.

 The layout accepts exactly four year digits, '-', two month digits, '-',
 two day digits and nothing more; the month must lie in 1..12 and the day in
 1..(days of that month), leap years following the Gregorian rule. Parsed
 dates are midnight UTC, so `After` compares them day by day.
 */
module Dates {
  import opened Wrappers

  datatype Date = Date(year: int, month: int, day: int)

  predicate IsLeapYear(year: int)
  {
    year % 4 == 0 && (year % 100 != 0 || year % 400 == 0)
  }

  function DaysIn(month: int, year: int): int
    requires 1 <= month <= 12
  {
    if month == 2 then (if IsLeapYear(year) then 29 else 28)
    else if month == 4 || month == 6 || month == 9 || month == 11 then 30
    else 31
  }

  /** A date the Gregorian calendar has: month 1..12, day within that month. */
  predicate IsValid(d: Date)
  {
    1 <= d.month <= 12 && 1 <= d.day <= DaysIn(d.month, d.year)
  }

  // ---------------------------------------------------------------------------
  // Fixed-width decimal fields
  // ---------------------------------------------------------------------------

  predicate IsDigit(c: char)
  {
    '0' <= c <= '9'
  }

  predicate AllDigits(s: string)
  {
    forall i :: 0 <= i < |s| ==> IsDigit(s[i])
  }

  function Pow10(n: nat): nat
  {
    if n == 0 then 1 else 10 * Pow10(n - 1)
  }

  function DigitChar(v: nat): char
    requires v < 10
  {
    '0' + v as char
  }

  /** The value of a string of decimal digits, most significant first. */
  function DecimalValue(s: string): nat
    requires AllDigits(s)
  {
    if |s| == 0 then 0
    else 10 * DecimalValue(s[..|s| - 1]) + (s[|s| - 1] - '0') as nat
  }

  /** The last `width` decimal digits of `n`, zero-padded. */
  function Digits(n: nat, width: nat): string
  {
    if width == 0 then [] else Digits(n / 10, width - 1) + [DigitChar(n % 10)]
  }

  /** Writing a number below 10^width in `width` digits and reading it back gives the number. */
  lemma {:induction false} DecimalValueOfDigits(n: nat, width: nat)
    requires n < Pow10(width)
    ensures |Digits(n, width)| == width
    ensures AllDigits(Digits(n, width))
    ensures DecimalValue(Digits(n, width)) == n
    decreases width
  {
    if width > 0 {
      var prefix := Digits(n / 10, width - 1);
      assert n / 10 < Pow10(width - 1);
      DecimalValueOfDigits(n / 10, width - 1);
      var s := Digits(n, width);
      assert s[..|s| - 1] == prefix;
    }
  }

  /** Reading a digit string and writing it back in as many digits gives the string. */
  lemma {:induction false} DigitsOfDecimalValue(s: string)
    requires AllDigits(s)
    ensures DecimalValue(s) < Pow10(|s|)
    ensures Digits(DecimalValue(s), |s|) == s
    decreases |s|
  {
    if |s| > 0 {
      var prefix := s[..|s| - 1];
      var last := (s[|s| - 1] - '0') as nat;
      DigitsOfDecimalValue(prefix);
      var v := DecimalValue(s);
      assert v == 10 * DecimalValue(prefix) + last;
      assert v / 10 == DecimalValue(prefix);
      assert v % 10 == last;
      assert s == prefix + [s[|s| - 1]];
    }
  }

  // ---------------------------------------------------------------------------
  // The "2006-01-02" layout
  // ---------------------------------------------------------------------------

  /** A date written in the "2006-01-02" layout. */
  function Format(d: Date): string
    requires 0 <= d.year && 0 <= d.month && 0 <= d.day
  {
    Digits(d.year, 4) + "-" + Digits(d.month, 2) + "-" + Digits(d.day, 2)
  }

  /**
   `time.Parse("2006-01-02", s)`: the date `s` denotes, or None where Go
   returns an error. Whatever it accepts is a valid date with a four-digit
   year that the layout writes back as exactly `s`.
   */
  function Parse(s: string): (r: Option<Date>)
    ensures r.Some? ==>
      && IsValid(r.value)
      && 0 <= r.value.year < 10000
      && Format(r.value) == s
  {
    if |s| == 10 && AllDigits(s[..4]) && s[4] == '-' && AllDigits(s[5..7]) && s[7] == '-' && AllDigits(s[8..])
    then
      var d := Date(DecimalValue(s[..4]), DecimalValue(s[5..7]), DecimalValue(s[8..]));
      if IsValid(d) then
        DigitsOfDecimalValue(s[..4]);
        DigitsOfDecimalValue(s[5..7]);
        DigitsOfDecimalValue(s[8..]);
        assert s == s[..4] + "-" + s[5..7] + "-" + s[8..];
        Some(d)
      else None
    else None
  }

  /**
   Text written in the layout from a four-digit year and two-digit month and
   day parses back to that date exactly when the date is valid.
   */
  lemma ParseFormat(d: Date)
    requires 0 <= d.year < 10000 && 0 <= d.month < 100 && 0 <= d.day < 100
    ensures Parse(Format(d)) == if IsValid(d) then Some(d) else None
  {
    DecimalValueOfDigits(d.year, 4);
    DecimalValueOfDigits(d.month, 2);
    DecimalValueOfDigits(d.day, 2);
    var s := Format(d);
    assert s[..4] == Digits(d.year, 4);
    assert s[5..7] == Digits(d.month, 2);
    assert s[8..] == Digits(d.day, 2);
  }

  // ---------------------------------------------------------------------------
  // Ordering
  // ---------------------------------------------------------------------------

  /** `a` comes strictly later than `b`, comparing year, then month, then day. */
  predicate After(a: Date, b: Date)
  {
    || a.year > b.year
    || (a.year == b.year && a.month > b.month)
    || (a.year == b.year && a.month == b.month && a.day > b.day)
  }

  function YearLength(year: int): int
  {
    if IsLeapYear(year) then 366 else 365
  }

  /** Days from 1 January of year 0 to 1 January of `year`. */
  function DaysBeforeYear(year: nat): nat
  {
    if year == 0 then 0 else DaysBeforeYear(year - 1) + YearLength(year - 1)
  }

  /** Days from 1 January to the first of `month` (month 13 stands for the next 1 January). */
  function DaysBeforeMonth(month: int, year: int): int
    requires 1 <= month <= 13
  {
    var common := [0, 31, 59, 90, 120, 151, 181, 212, 243, 273, 304, 334, 365][month - 1];
    if month > 2 && IsLeapYear(year) then common + 1 else common
  }

  /** The day count of a date from 1 January of year 0: the instant Go compares, in days. */
  function DayNumber(d: Date): int
    requires IsValid(d) && d.year >= 0
  {
    DaysBeforeYear(d.year) + DaysBeforeMonth(d.month, d.year) + d.day - 1
  }

  /** A valid date's offset within its year lies in 0..YearLength-1. */
  lemma DayOfYearInRange(d: Date)
    requires IsValid(d)
    ensures 0 <= DaysBeforeMonth(d.month, d.year) + d.day - 1 < YearLength(d.year)
  {
  }

  /** Months in the same year: a later month starts after every day of an earlier one. */
  lemma MonthsOrdered(m1: int, m2: int, year: int)
    requires 1 <= m1 < m2 <= 12
    ensures DaysBeforeMonth(m1, year) + DaysIn(m1, year) <= DaysBeforeMonth(m2, year)
  {
  }

  /** A later year starts after every day of an earlier one. */
  lemma {:induction false} YearsOrdered(y1: nat, y2: nat)
    requires y1 < y2
    ensures DaysBeforeYear(y1) + YearLength(y1) <= DaysBeforeYear(y2)
    decreases y2
  {
    if y1 + 1 < y2 {
      YearsOrdered(y1, y2 - 1);
    }
  }

  /**
   Comparing year, month and day in turn orders valid dates exactly as their
   day counts do, which is what Go's `Time.After` compares.
   */
  lemma AfterIsLaterDay(a: Date, b: Date)
    requires IsValid(a) && IsValid(b) && a.year >= 0 && b.year >= 0
    ensures After(a, b) <==> DayNumber(a) > DayNumber(b)
  {
    DayOfYearInRange(a);
    DayOfYearInRange(b);
    if a.year < b.year {
      YearsOrdered(a.year, b.year);
    } else if a.year > b.year {
      YearsOrdered(b.year, a.year);
    } else if a.month < b.month {
      MonthsOrdered(a.month, b.month, a.year);
    } else if a.month > b.month {
      MonthsOrdered(b.month, a.month, a.year);
    }
  }
}

=== FILE: report_handler.dfy ===
/**
 The sales-report-by-date endpoint, `GetSalesReportByDate` of
 handlers/report_handler.go: GET /api/report?start_date=...&end_date=...

 The handler checks its two query parameters in a fixed order: both present,
 start_date well formed, end_date well formed, start not after end. The first
 failed check answers 400 with its own message and the repository is not
 consulted. Otherwise the repository is asked for the report with the two
 strings exactly as received; its error answers 500 with the error text, its
 report answers 200.

 A query parameter that is absent reads as the empty string, as Go's
 `url.Values.Get` returns it. The repository is a parameter: the report it
 computes lives in SQL and is not modelled here.
 */
module ReportHandler {
  import opened Wrappers
  import opened Dates

  const StatusOK: int := 200
  const StatusBadRequest: int := 400
  const StatusInternalServerError: int := 500

  datatype TopProduct = TopProduct(name: string, qtySold: int)

  /** The repository's report; the best-selling product is absent when nothing sold. */
  datatype SalesReport = SalesReport(totalRevenue: int, totalTransactions: int, topProduct: Option<TopProduct>)

  /** The repository as the handler sees it: dates in, report or error text out. */
  type Repository = (string, string) -> Result<SalesReport, string>

  /** Why the handler refuses a request, in the order it checks. */
  datatype Rejection = MissingParameter | BadStartDate | BadEndDate | StartAfterEnd

  /** The error text the handler sends for each refusal. */
  function Message(why: Rejection): string
  {
    match why
    case MissingParameter => "start_date dan end_date harus disediakan (format: YYYY-MM-DD)"
    case BadStartDate => "start_date format tidak valid (harus YYYY-MM-DD)"
    case BadEndDate => "end_date format tidak valid (harus YYYY-MM-DD)"
    case StartAfterEnd => "start_date tidak boleh lebih besar dari end_date"
  }

  /** The handler's decision before it touches the repository. */
  datatype Validation = Reject(why: Rejection) | Accept(startDate: string, endDate: string)

  /**
   The ordered checks. A request is accepted exactly when both parameters
   parse and start is not after end, and then the repository gets the two
   strings unchanged. A refusal names the first failed check: a malformed
   end date is only reported once the start date is known to be good, and
   an inverted range only once both are.
   */
  function ValidateRange(startDate: string, endDate: string): (v: Validation)
    ensures v.Accept? <==>
      && Parse(startDate).Some? && Parse(endDate).Some?
      && !After(Parse(startDate).value, Parse(endDate).value)
    ensures v.Accept? ==> v.startDate == startDate && v.endDate == endDate
    ensures v == Reject(MissingParameter) <==> startDate == "" || endDate == ""
    ensures v == Reject(BadStartDate) ==> Parse(startDate).None?
    ensures v == Reject(BadEndDate) ==> Parse(startDate).Some? && Parse(endDate).None?
    ensures v == Reject(StartAfterEnd) ==> Parse(startDate).Some? && Parse(endDate).Some?
  {
    if startDate == "" || endDate == "" then Reject(MissingParameter)
    else if Parse(startDate).None? then Reject(BadStartDate)
    else if Parse(endDate).None? then Reject(BadEndDate)
    else if After(Parse(startDate).value, Parse(endDate).value) then Reject(StartAfterEnd)
    else Accept(startDate, endDate)
  }

  datatype Body = ErrorBody(error: string) | ReportBody(report: SalesReport)

  datatype Response = Response(status: int, body: Body)

  /**
   `GetSalesReportByDate`: 400 with the refusal's message when validation
   fails, whatever the repository would say; otherwise 500 with the
   repository's error text or 200 with its report, for the strings as sent.
   */
  function GetSalesReportByDate(startDate: string, endDate: string, repository: Repository): (resp: Response)
    ensures resp.status == StatusBadRequest <==> ValidateRange(startDate, endDate).Reject?
    ensures ValidateRange(startDate, endDate).Reject? ==>
      resp.body == ErrorBody(Message(ValidateRange(startDate, endDate).why))
    ensures ValidateRange(startDate, endDate).Accept? ==>
      match repository(startDate, endDate)
      case Failure(msg) => resp == Response(StatusInternalServerError, ErrorBody(msg))
      case Success(report) => resp == Response(StatusOK, ReportBody(report))
  {
    match ValidateRange(startDate, endDate)
    case Reject(why) => Response(StatusBadRequest, ErrorBody(Message(why)))
    case Accept(s, e) =>
      match repository(s, e)
      case Failure(msg) => Response(StatusInternalServerError, ErrorBody(msg))
      case Success(report) => Response(StatusOK, ReportBody(report))
  }
}

=== FILE: report_properties.dfy ===
/**
 Properties of the report endpoint's validation: the precedence of its checks,
 how its date comparison relates to calendar days, and what reaches the
 repository.
 */
module ReportProperties {
  import opened Wrappers
  import opened Dates
  import opened ReportHandler

  /**
   Well-formed dates are accepted exactly when the start day does not come
   after the end day on the calendar; equal dates are accepted.
   */
  lemma AcceptedIffStartNotLaterDay(startDate: string, endDate: string)
    requires Parse(startDate).Some? && Parse(endDate).Some?
    ensures ValidateRange(startDate, endDate).Accept? <==>
      DayNumber(Parse(startDate).value) <= DayNumber(Parse(endDate).value)
  {
    AfterIsLaterDay(Parse(startDate).value, Parse(endDate).value);
  }

  /** A range whose two ends are the same well-formed date is accepted. */
  lemma SameDayAccepted(date: string)
    requires Parse(date).Some?
    ensures ValidateRange(date, date) == Accept(date, date)
  {
  }

  /**
   A missing parameter answers 400 with the missing-parameter message, and
   the answer is the same whatever the repository would have returned.
   */
  lemma MissingParameterAnswersBadRequest(startDate: string, endDate: string, repository: Repository)
    requires startDate == "" || endDate == ""
    ensures GetSalesReportByDate(startDate, endDate, repository)
         == Response(StatusBadRequest, ErrorBody(Message(MissingParameter)))
  {
  }

  /** A refused request gets the same answer from any two repositories: none is consulted. */
  lemma RefusalIgnoresRepository(startDate: string, endDate: string, r1: Repository, r2: Repository)
    requires ValidateRange(startDate, endDate).Reject?
    ensures GetSalesReportByDate(startDate, endDate, r1) == GetSalesReportByDate(startDate, endDate, r2)
    ensures GetSalesReportByDate(startDate, endDate, r1).status == StatusBadRequest
  {
  }

  /** A malformed start date is the error reported, even when the end date is malformed too. */
  lemma BadStartReportedFirst(startDate: string, endDate: string)
    requires startDate != "" && endDate != ""
    requires Parse(startDate).None?
    ensures ValidateRange(startDate, endDate) == Reject(BadStartDate)
  {
  }

  /** The endpoint answers only 200, 400 or 500. */
  lemma StatusIsOkBadRequestOrServerError(startDate: string, endDate: string, repository: Repository)
    ensures GetSalesReportByDate(startDate, endDate, repository).status
         in {StatusOK, StatusBadRequest, StatusInternalServerError}
  {
  }

  /** Month 13 is out of range, so "2026-13-01" does not parse. */
  lemma MonthThirteenIsMalformed()
    ensures Parse("2026-13-01").None?
  {
    var text := "2026-13-01";
    assert text[5..7] == "13" && "13"[..1] == "1";
    MonthOutOfRange(text);
  }

  /** After a well-formed start date, the end date "2026-13-01" is refused as malformed. */
  lemma MonthThirteenEndRefused(startDate: string)
    requires Parse(startDate).Some?
    ensures ValidateRange(startDate, "2026-13-01") == Reject(BadEndDate)
  {
    MonthThirteenIsMalformed();
  }

  /** Text whose month field is not 1..12 does not parse, whatever the other fields hold. */
  lemma MonthOutOfRange(text: string)
    requires |text| == 10 && AllDigits(text[5..7])
    requires DecimalValue(text[5..7]) < 1 || DecimalValue(text[5..7]) > 12
    ensures Parse(text).None?
  {
  }

  /** The 29th of February of a four-digit year parses exactly in leap years. */
  lemma LeapDay(year: int)
    requires 0 <= year < 10000
    ensures Parse(Format(Date(year, 2, 29))).Some? <==> IsLeapYear(year)
  {
    ParseFormat(Date(year, 2, 29));
  }
}

=== FILE: transaction_loop.dfy ===
/**
 `CreateTransaction` of repositories/transaction_repository.go written the way
 the repository runs it: a loop over the items with early returns, a loop that
 stamps the transaction id on the details and a loop that inserts them. It
 computes exactly what the fold `TransactionRepository.CreateTransaction`
 defines.
 */
module TransactionLoop {
  import opened Wrappers
  import opened TransactionRepository
  import opened CheckoutProperties

  /**
   The loop invariant of the item loop moves one line on: the part already
   processed absorbs the line's pass.
   */
  lemma LoopAdvances(whole: Result<Pass, CheckoutError>, prefix: Pass, items: seq<CheckoutItem>, i: nat, fault: DbFault)
    requires i < |items|
    requires whole == Extend(prefix, ProcessItems(prefix.store, items[i..], i, fault))
    requires Step(prefix.store, items[i], i, fault).Success?
    ensures
      var s := Step(prefix.store, items[i], i, fault).value;
      whole == Extend(Pass(s.0, prefix.total + s.1.subtotal, prefix.details + [s.1]),
                      ProcessItems(s.0, items[i + 1..], i + 1, fault))
  {
    var s := Step(prefix.store, items[i], i, fault).value;
    assert items[i..][0] == items[i] && items[i..][1..] == items[i + 1..];
    ProcessItemsUnfold(prefix.store, items[i..], i, fault);
    ExtendTwice(prefix, Pass(s.0, s.1.subtotal, [s.1]), ProcessItems(s.0, items[i + 1..], i + 1, fault));
  }

  /** Under the loop invariant, a failing line makes the failure of the whole loop. */
  lemma LoopStops(whole: Result<Pass, CheckoutError>, prefix: Pass, items: seq<CheckoutItem>, i: nat, fault: DbFault)
    requires i < |items|
    requires whole == Extend(prefix, ProcessItems(prefix.store, items[i..], i, fault))
    requires Step(prefix.store, items[i], i, fault).Failure?
    ensures whole == Failure(Step(prefix.store, items[i], i, fault).error)
  {
    assert items[i..][0] == items[i];
    StepFailureEndsLoop(prefix.store, items[i..], i, fault);
  }

  /**
   The item loop: read the product, check the stock, add the subtotal,
   decrement the stock, append the detail; the first failure ends it. It
   returns what the fold `ProcessItems` defines.
   */
  method RunItems(store: Store, items: seq<CheckoutItem>, fault: DbFault) returns (r: Result<Pass, CheckoutError>)
    ensures r == ProcessItems(store, items, 0, fault)
  {
    var work := store;
    var total := 0;
    var details: seq<TransactionDetail> := [];
    var i := 0;
    ghost var whole := ProcessItems(store, items, 0, fault);
    ProcessItemsSplitAtStart(store, items, 0, fault);
    while i < |items|
      invariant 0 <= i <= |items|
      invariant whole == Extend(Pass(work, total, details), ProcessItems(work, items[i..], i, fault))
    {
      var item := items[i];
      if fault == ReadFails(i) {
        LoopStops(whole, Pass(work, total, details), items, i, fault);
        return Failure(DatabaseError(fault));
      }
      if item.productId !in work {
        LoopStops(whole, Pass(work, total, details), items, i, fault);
        return Failure(ProductNotFound(item.productId));
      }
      var p := work[item.productId];
      if item.quantity > p.stock {
        LoopStops(whole, Pass(work, total, details), items, i, fault);
        return Failure(InsufficientStock(p.name, item.quantity, p.stock));
      }
      var subtotal := item.quantity * p.price;
      if fault == UpdateFails(i) {
        LoopStops(whole, Pass(work, total, details), items, i, fault);
        return Failure(DatabaseError(fault));
      }
      var detail := TransactionDetail(0, item.productId, p.name, item.quantity, subtotal);
      var work' := work[item.productId := p.(stock := p.stock - item.quantity)];
      assert Step(work, items[i], i, fault) == Success((work', detail));
      LoopAdvances(whole, Pass(work, total, details), items, i, fault);
      total := total + subtotal;
      work := work';
      details := details + [detail];
      i := i + 1;
    }
    assert items[i..] == [];
    assert details + [] == details;
    return Success(Pass(work, total, details));
  }

  /** The stamping loop: every detail gets the transaction id, nothing else changes. */
  method StampDetails(details: seq<TransactionDetail>, txId: int) returns (stamped: seq<TransactionDetail>)
    ensures |stamped| == |details|
    ensures forall k :: 0 <= k < |details| ==> stamped[k] == details[k].(transactionId := txId)
  {
    stamped := details;
    var j := 0;
    while j < |stamped|
      invariant 0 <= j <= |stamped| == |details|
      invariant forall k :: 0 <= k < j ==> stamped[k] == details[k].(transactionId := txId)
      invariant forall k :: j <= k < |stamped| ==> stamped[k] == details[k]
    {
      stamped := stamped[j := stamped[j].(transactionId := txId)];
      j := j + 1;
    }
  }

  /** The detail-insert loop: the first failing insert names its product; otherwise no error. */
  method InsertDetails(details: seq<TransactionDetail>, fault: DbFault) returns (err: Option<CheckoutError>)
    ensures err.Some? <==> fault.InsertDetailFails? && fault.line < |details|
    ensures err.Some? ==> err.value == DetailInsertFailed(details[fault.line].productId, fault)
  {
    var n := 0;
    while n < |details|
      invariant 0 <= n <= |details|
      invariant !(fault.InsertDetailFails? && fault.line < n)
    {
      if fault == InsertDetailFails(n) {
        return Some(DetailInsertFailed(details[n].productId, fault));
      }
      n := n + 1;
    }
    return None;
  }

  /** The whole repository call: begin, item loop, transaction insert, stamping, detail inserts, commit. */
  method CreateTransaction(store: Store, items: seq<CheckoutItem>, txId: int, fault: DbFault) returns (out: Outcome)
    ensures out == TransactionRepository.CreateTransaction(store, items, txId, fault)
  {
    if fault == BeginFails {
      return Outcome(store, Failure(DatabaseError(fault)));
    }
    var pass := RunItems(store, items, fault);
    if pass.Failure? {
      return Outcome(store, Failure(pass.error));
    }
    var work, total, details := pass.value.store, pass.value.total, pass.value.details;
    if fault == InsertTransactionFails {
      return Outcome(store, Failure(DatabaseError(fault)));
    }
    var stamped := StampDetails(details, txId);
    assert stamped == Stamp(details, txId);
    if fault == PrepareFails {
      return Outcome(store, Failure(DatabaseError(fault)));
    }
    var err := InsertDetails(stamped, fault);
    if err.Some? {
      return Outcome(store, Failure(err.value));
    }
    if fault == CommitFails {
      return Outcome(store, Failure(DatabaseError(fault)));
    }
    return Outcome(work, Success(Transaction(txId, total, stamped)));
  }
}

=== FILE: transaction_repository.dfy ===
/**
 The checkout engine of the point-of-sale backend: `CreateTransaction` of
 repositories/transaction_repository.go with the SQL calls abstracted away.

 Inside one database transaction the repository walks the requested items in
 order. For each item it reads the product row, rejects the item when the
 product is missing or its stock is smaller than the quantity, adds
 quantity * price to a running total, decrements the stock and appends a
 detail record. It then inserts the transaction row, stamps its id on every
 detail, inserts the details and commits. Any error leaves the transaction
 uncommitted, so the products table keeps the contents it had before.

 The products table is an immutable map from product id to row. The working
 copy threaded through the loop stands for the uncommitted state of the
 database transaction: a repeated product id is read back from it and so sees
 the stock already reduced by the earlier lines.
 */
module TransactionRepository {
  import opened Wrappers

  /** A product row as the checkout query scans it; price and stock are integers. */
  datatype Product = Product(name: string, price: int, stock: int)

  /** The products table, keyed by product id. */
  type Store = map<int, Product>

  /** One requested line of a checkout. Neither sign nor size of `quantity` is checked. */
  datatype CheckoutItem = CheckoutItem(productId: int, quantity: int)

  /** A line of a transaction; `productName` is the name read at the time of sale. */
  datatype TransactionDetail = TransactionDetail(
    transactionId: int,
    productId: int,
    productName: string,
    quantity: int,
    subtotal: int)

  datatype Transaction = Transaction(id: int, totalAmount: int, details: seq<TransactionDetail>)

  /**
   The database call that fails, if any. The calls themselves are not modelled;
   a fault only decides at which point the repository returns an error.
   `line` counts request items (and inserted details) from 0.
   */
  datatype DbFault =
    | NoFault
    | BeginFails                  // db.Begin
    | ReadFails(line: nat)        // the product query, with an error other than "no rows"
    | UpdateFails(line: nat)      // the stock UPDATE
    | InsertTransactionFails      // INSERT INTO transactions ... RETURNING id
    | PrepareFails                // preparing the detail INSERT
    | InsertDetailFails(line: nat) // executing the detail INSERT
    | CommitFails                 // tx.Commit

  datatype CheckoutError =
    | ProductNotFound(productId: int)
    | InsufficientStock(productName: string, requested: int, available: int)
    | DetailInsertFailed(productId: int, cause: DbFault)
    | DatabaseError(cause: DbFault)

  /** What checkout leaves behind: the committed products table and the receipt or error. */
  datatype Outcome = Outcome(committed: Store, receipt: Result<Transaction, CheckoutError>)

  /** The state the checkout loop has built when it finishes: working table, total and details. */
  datatype Pass = Pass(store: Store, total: int, details: seq<TransactionDetail>)

  /** Faults that can interrupt the item loop. */
  predicate LoopFault(fault: DbFault) {
    fault.ReadFails? || fault.UpdateFails?
  }

  /** Total quantity requested for product `id` by `items`. */
  function QtyFor(items: seq<CheckoutItem>, id: int): int
  {
    if |items| == 0 then 0
    else (if items[0].productId == id then items[0].quantity else 0) + QtyFor(items[1..], id)
  }

  /** Sum of the subtotals of `details`. */
  function SumSubtotals(details: seq<TransactionDetail>): int
  {
    if |details| == 0 then 0 else details[0].subtotal + SumSubtotals(details[1..])
  }

  /**
   `d` is the detail that `item` yields when the product row has the name and
   price of `store`, stamped with transaction id `txId`.
   */
  predicate Records(store: Store, item: CheckoutItem, txId: int, d: TransactionDetail)
  {
    && item.productId in store
    && d == TransactionDetail(
         txId, item.productId, store[item.productId].name, item.quantity,
         item.quantity * store[item.productId].price)
  }

  /** `after` is `before` with each product's stock reduced by what `items` request of it. */
  ghost predicate Decremented(before: Store, items: seq<CheckoutItem>, after: Store)
  {
    && after.Keys == before.Keys
    && forall id :: id in before ==>
         after[id] == before[id].(stock := before[id].stock - QtyFor(items, id))
  }

  /**
   One iteration of the item loop on the working table. The detail is not yet
   stamped: its transaction id is Go's zero value.
   */
  function Step(work: Store, item: CheckoutItem, line: nat, fault: DbFault): Result<(Store, TransactionDetail), CheckoutError>
  {
    if fault == ReadFails(line) then Failure(DatabaseError(fault))
    else if item.productId !in work then Failure(ProductNotFound(item.productId))
    else
      var p := work[item.productId];
      if item.quantity > p.stock then Failure(InsufficientStock(p.name, item.quantity, p.stock))
      else if fault == UpdateFails(line) then Failure(DatabaseError(fault))
      else
        var subtotal := item.quantity * p.price;
        Success((work[item.productId := p.(stock := p.stock - item.quantity)],
                 TransactionDetail(0, item.productId, p.name, item.quantity, subtotal)))
  }

  /**
   A line that passes yields the detail priced from the product row it read
   and takes exactly its quantity off that product's stock. Without a database
   fault, a line passes exactly when its product exists and the quantity is at
   most the stock; otherwise the error says which check failed.
   */
  lemma StepSpec(work: Store, item: CheckoutItem, line: nat, fault: DbFault)
    ensures var r := Step(work, item, line, fault);
      && (r.Success? ==> Records(work, item, 0, r.value.1) && Decremented(work, [item], r.value.0))
      && (r.Failure? && !LoopFault(fault) ==>
            r.error == (if item.productId !in work then ProductNotFound(item.productId)
                        else InsufficientStock(work[item.productId].name, item.quantity, work[item.productId].stock)))
      && (!LoopFault(fault) ==>
            (r.Success? <==> item.productId in work && item.quantity <= work[item.productId].stock))
  {
  }

  /**
   The item loop as an ordered fold: `items` are the request lines from index
   `first` on, `work` is the uncommitted products table.
   */
  function ProcessItems(work: Store, items: seq<CheckoutItem>, first: nat, fault: DbFault): Result<Pass, CheckoutError>
    decreases |items|
  {
    if |items| == 0 then Success(Pass(work, 0, []))
    else
      match Step(work, items[0], first, fault)
      case Failure(e) => Failure(e)
      case Success((work', detail)) =>
        match ProcessItems(work', items[1..], first + 1, fault)
        case Failure(e) => Failure(e)
        case Success(rest) =>
          Success(Pass(rest.store, detail.subtotal + rest.total, [detail] + rest.details))
  }

  /**
   What a successful pass of the item loop built: one detail per item, in
   order, each priced from the product row as it was read; the total is the
   sum of the subtotals; each stock went down by exactly the quantity
   requested of that product, and nothing else in the table changed.
   */
  lemma {:induction false} ProcessItemsSpec(work: Store, items: seq<CheckoutItem>, first: nat, fault: DbFault)
    requires ProcessItems(work, items, first, fault).Success?
    ensures var p := ProcessItems(work, items, first, fault).value;
      && |p.details| == |items|
      && (forall i :: 0 <= i < |items| ==> Records(work, items[i], 0, p.details[i]))
      && p.total == SumSubtotals(p.details)
      && Decremented(work, items, p.store)
    decreases |items|
  {
    if |items| > 0 {
      var s := Step(work, items[0], first, fault);
      StepSpec(work, items[0], first, fault);
      ProcessItemsSpec(s.value.0, items[1..], first + 1, fault);
    }
  }

  /** The details with the transaction id `txId` written into each. */
  function Stamp(details: seq<TransactionDetail>, txId: int): seq<TransactionDetail>
  {
    seq(|details|, i requires 0 <= i < |details| => details[i].(transactionId := txId))
  }

  /**
   `CreateTransaction`: `txId` is the id the transactions INSERT returns and
   `fault` the database call that fails, if any. On any error the committed
   table is the input table. On success the receipt carries `txId` on itself
   and on every detail, one detail per item in request order, the total of the
   subtotals, and the committed table is the input with every requested
   quantity taken off its product's stock.
   */
  function CreateTransaction(store: Store, items: seq<CheckoutItem>, txId: int, fault: DbFault): (out: Outcome)
    ensures out.receipt.Failure? ==> out.committed == store
    ensures out.receipt.Success? ==>
      && out.receipt.value.id == txId
      && |out.receipt.value.details| == |items|
      && (forall i :: 0 <= i < |items| ==> Records(store, items[i], txId, out.receipt.value.details[i]))
      && out.receipt.value.totalAmount == SumSubtotals(out.receipt.value.details)
      && Decremented(store, items, out.committed)
  {
    if fault == BeginFails then Outcome(store, Failure(DatabaseError(fault)))
    else
      match ProcessItems(store, items, 0, fault)
      case Failure(e) => Outcome(store, Failure(e))
      case Success(pass) =>
        ProcessItemsSpec(store, items, 0, fault);
        if fault == InsertTransactionFails || fault == PrepareFails then
          Outcome(store, Failure(DatabaseError(fault)))
        else if fault.InsertDetailFails? && fault.line < |pass.details| then
          Outcome(store, Failure(DetailInsertFailed(pass.details[fault.line].productId, fault)))
        else if fault == CommitFails then
          Outcome(store, Failure(DatabaseError(fault)))
        else
          var details := Stamp(pass.details, txId);
          SubtotalsUnchangedByStamp(pass.details, txId);
          Outcome(pass.store, Success(Transaction(txId, pass.total, details)))
  }

  /** Stamping a transaction id does not change any subtotal. */
  lemma {:induction false} SubtotalsUnchangedByStamp(details: seq<TransactionDetail>, txId: int)
    ensures SumSubtotals(Stamp(details, txId)) == SumSubtotals(details)
    decreases |details|
  {
    if |details| > 0 {
      assert Stamp(details, txId)[1..] == Stamp(details[1..], txId);
      SubtotalsUnchangedByStamp(details[1..], txId);
    }
  }
}

=== FILE: wrappers.dfy ===
/** Failure-carrying datatypes shared by the checkout and report models. */
module Wrappers {

  /** A value that may be absent (where Go returns nil). */
  datatype Option<+T> = None | Some(value: T)

  /** The value of an operation, or the error it returned instead. */
  datatype Result<+R, +E> = Success(value: R) | Failure(error: E)
}
